=== FILE: README.md ===
# MultiGenerator square-grid dispatcher, modelled in Dafny

MultiGenerator builds one Minecraft world out of several world generators.
`SquareGridGenerator` cuts the chunk plane into square cells of
`cellLengthInChunks` chunks. It lays the cells out on a square grid
`gridLengthInCells` wide and hands each cell to one of the configured
generators, chosen by `(regionX + regionZ * gridLengthInCells) mod generators.size()`.
Three phases use this choice independently: the spawn check, terrain generation
and block population. The grid's one block populator runs the chosen
generator's own populators, with a stack-depth guard and per-populator
isolation of `IllegalArgumentException`.

The model has these modules:

- `Results` (results.dfy): `Nullable` for a Java reference that may be null, and `Result` for a call that returns a value or throws.
- `JavaInt` (java_int.dfy): Java `int` arithmetic written out. It covers two's-complement wrap, `Math.abs` (which returns `MIN_VALUE` for `MIN_VALUE`), and truncating `/` and `%`.
- `CellMapper` (cell_mapper.dfy): the index arithmetic of `getGenerator`. `CellIndex` computes it exactly; `JavaCellIndex` computes it the way the Java source does, overflow included.
- `Registry` (registry.dfy): the registry as the configured lookups in order. Missing plugins are skipped; null default generators are kept.
- `GridDispatch` (grid_dispatch.dfy): construction with the grid-sizing loop, generator selection, `canSpawn`, `generateChunkData`, `isParallelCapable` and the three `shouldGenerate*` toggles.
- `Populator` (populator.dfy): `SurvivalPopulator.populate`.
- `Phases` (phases.dfy): cross-phase consistency, and the treatment of null handles.

Delegate generators are an opaque type parameter `G`. Their answers are
function parameters: `spawn`, `terrain`, `populatorsOf`, and `outcome` for
how each delegate populator's call ends. The host's default behaviour
(`super.canSpawn`, `createVanillaChunkData`) comes in as plain values.
The call-stack depth is an explicit `depth` argument. Every function is pure,
so a chunk always gets the same generator whoever asks and whenever they ask.

Behaviour of the code worth knowing, all of it modelled:

- The code never validates `cellLengthInChunks` (line 63). Construction
  succeeds for any `int`. A cell size of 0 raises `ArithmeticException` at
  the first per-chunk call, modelled as `DivisionByZero`. A negative cell
  size goes through Java's truncating division.
- The index is computed in 32-bit `int` (lines 116-122). `Math.abs` leaves
  `Integer.MIN_VALUE` negative. The product `(chunkZ / cellLengthInChunks) * gridLengthInCells`
  at line 121 can wrap, and so can the sum at line 122. Outside
  `CellMapper.Fits` the Java index can therefore be negative, and then
  `generators.get` raises `IndexOutOfBoundsException`. Or it can be
  non-negative, and then it may name a different generator than the exact
  `CellIndex`, picked silently; it may also happen to be the right one.
  The range property and the agreement with `CellIndex` hold under `CellMapper.Fits`.
- The stack-depth threshold is the constant 900 (`Populator.StackLimit`).

## Model

| member | source | states |
|---|---|---|
| CellMapper.CellIndex | src/main/java/com/robomwm/multigenerator/SquareGridGenerator.java:115-122 | The exact cell index is always a valid registry position: 0 <= r < count. |
| CellMapper.JavaCellIndex | src/main/java/com/robomwm/multigenerator/SquareGridGenerator.java:113-122 | The index as Java computes it is an `int` strictly between -count and count. Outside `Fits` it can differ from `CellIndex` in sign and in magnitude. |
| CellMapper.JavaAgrees | src/main/java/com/robomwm/multigenerator/SquareGridGenerator.java:116-122 | When no step leaves the `int` range, the Java index equals the exact `CellIndex`. Dafny's Euclidean `/` and `%` then agree with Java's truncating ones. |
| CellMapper.JavaIndexInRange | src/main/java/com/robomwm/multigenerator/SquareGridGenerator.java:116-122 | Under the no-overflow condition, the Java index lies in [0, generators.size()). |
| CellMapper.MinValueGivesNegativeIndex | src/main/java/com/robomwm/multigenerator/SquareGridGenerator.java:116-122 | Three generators on their minimal grid of side 2, cell size 1: chunk (MIN_VALUE, 0) gets index -2, because `Math.abs` leaves `MIN_VALUE` negative. Other z values or cell sizes in the `MIN_VALUE` column can give a non-negative, wrong index instead. |
| CellMapper.SumOverflowGivesNegativeIndex | src/main/java/com/robomwm/multigenerator/SquareGridGenerator.java:120-122 | Three generators on their minimal grid of side 2: `regionX + regionZ` wraps for chunk (MAX_VALUE, 1), and the index is -1. |
| CellMapper.MinValueColumnPicksAnotherIndex | src/main/java/com/robomwm/multigenerator/SquareGridGenerator.java:116-122 | Three generators on their minimal grid of side 2, cell size 2: chunk (MIN_VALUE, MAX_VALUE) gets Java index 2, but the exact index is 1. No sum or product wraps; `Math.abs(MIN_VALUE)` staying negative causes it. |
| CellMapper.ProductOverflowPicksAnotherIndex | src/main/java/com/robomwm/multigenerator/SquareGridGenerator.java:121-122 | Seventeen generators on their minimal grid of side 5, cell size 1: the product at line 121 wraps for chunk (0, 900000000). The Java index is 5, but the exact index is 6. |
| CellMapper.OneGeneratorAlwaysIndexZero | src/main/java/com/robomwm/multigenerator/SquareGridGenerator.java:122 | With one generator the Java index is 0 for every chunk, overflow or not. |
| CellMapper.Mirrored | src/main/java/com/robomwm/multigenerator/SquareGridGenerator.java:115-117 | Negating x, or negating z, does not change the exact index. |
| CellMapper.JavaMirrored | src/main/java/com/robomwm/multigenerator/SquareGridGenerator.java:115-117 | The Java index is unchanged when either coordinate is replaced by its Java negation. This holds for every `int`, `MIN_VALUE` included. |
| CellMapper.CellIsUniform | src/main/java/com/robomwm/multigenerator/SquareGridGenerator.java:119-122 | All chunks of the square at cell column rx, cell row rz get index (rx + rz * gridSide) mod count. |
| CellMapper.EveryIndexOwnsACell | src/main/java/com/robomwm/multigenerator/SquareGridGenerator.java:88-90 | On a minimal grid, every generator index owns a cell among the gridSide x gridSide cells nearest the origin. |
| CellMapper.MinimalSideUnique | src/main/java/com/robomwm/multigenerator/SquareGridGenerator.java:88-90 | At most one side is minimal for a given generator count; `GridDispatch.Construct` finds it. |
| CellMapper.WorkedExample | src/main/java/com/robomwm/multigenerator/SquareGridGenerator.java:119-122 | With 3 generators, side 2 and 4-chunk cells: side 2 is minimal, and chunks (5, 0) and (9, 5) both get index 1. |
| Registry.Resolve | src/main/java/com/robomwm/multigenerator/SquareGridGenerator.java:72-86 | The registry is no longer than the configuration and is empty iff every lookup was missing. Each entry is the handle of some found plugin. |
| Registry.ResolveAppend | src/main/java/com/robomwm/multigenerator/SquareGridGenerator.java:72-83 | Entries are processed one at a time, in configuration order: resolving a + b gives Resolve(a) + Resolve(b). |
| Registry.ResolveOne | src/main/java/com/robomwm/multigenerator/SquareGridGenerator.java:95-110 | A missing plugin adds nothing. A found plugin adds its default generator's handle, even a null one. |
| Registry.ResolvedEntryKept | src/main/java/com/robomwm/multigenerator/SquareGridGenerator.java:95-110 | Every found plugin's handle appears in the registry. |
| GridDispatch.Construct | src/main/java/com/robomwm/multigenerator/SquareGridGenerator.java:63-90 | Construction fails iff no configured plugin was found. On success: the registry is the resolved handles in order, and the grid side is minimal (side^2 >= n > (side-1)^2). The cell size and the three toggles are the configured values. |
| GridDispatch.Select | src/main/java/com/robomwm/multigenerator/SquareGridGenerator.java:113-127 | Selection raises only `DivisionByZero` or `IndexOutOfBounds`. `DivisionByZero` happens iff the cell size is 0. On success it returns a handle from the registry. |
| GridDispatch.SelectAsWritten | src/main/java/com/robomwm/multigenerator/SquareGridGenerator.java:113-127 | As written, a null handle raises `NullHandle` (line 125 calls `getClass()` on it). Otherwise it behaves like `Select`. |
| GridDispatch.SelectByCellIndex | src/main/java/com/robomwm/multigenerator/SquareGridGenerator.java:116-127 | Within the `int` range, selection returns the handle at `CellIndex`. |
| GridDispatch.SelectMirrored | src/main/java/com/robomwm/multigenerator/SquareGridGenerator.java:115-117 | Negating either coordinate never changes the selection, or the exception it raises. |
| GridDispatch.MinValueChunkRaises | src/main/java/com/robomwm/multigenerator/SquareGridGenerator.java:116-127 | Three generators on their minimal grid of side 2, cell size 1: chunk (MIN_VALUE, 0) raises `IndexOutOfBounds`. Other z values or cell sizes in the `MIN_VALUE` column can select a wrong generator without raising. |
| GridDispatch.OneGeneratorAlwaysSelected | src/main/java/com/robomwm/multigenerator/SquareGridGenerator.java:113-127 | With one generator and a non-zero cell size, every chunk selects that generator and nothing raises. |
| GridDispatch.CanSpawn | src/main/java/com/robomwm/multigenerator/SquareGridGenerator.java:130-138 | `canSpawn` passes its (x, z) to selection unchanged. It raises exactly when selection raises, with the same exception. For a non-null selected handle it returns that delegate's answer; for a null one, the host's default. |
| GridDispatch.GenerateChunkData | src/main/java/com/robomwm/multigenerator/SquareGridGenerator.java:140-148 | `generateChunkData` raises exactly when selection raises, with the same exception. For a non-null selected handle it returns that delegate's chunk data; for a null one, the host's vanilla data. |
| Populator.FanOut | src/main/java/com/robomwm/multigenerator/SquareGridGenerator.java:172-188 | Something escapes iff some delegate populator throws something other than `IllegalArgumentException`. If nothing escapes, every populator runs, in order. The populators run always form a prefix of the list. The caught ones are reported, in order. |
| Populator.FanOutStopsAtFirstUncaught | src/main/java/com/robomwm/multigenerator/SquareGridGenerator.java:172-188 | When an exception escapes, the loop stops at the first populator that threw it. Every earlier populator ran and none of them threw an uncaught exception. |
| Populator.Populate | src/main/java/com/robomwm/multigenerator/SquareGridGenerator.java:161-171 | Above depth 900 no populator runs and nothing is raised. Any populators that do run form a prefix of the selected non-null delegate's list. Every escaping exception other than a delegate's own comes from selection. |
| Populator.ReachedUnlessEarlierOtherFailure | src/main/java/com/robomwm/multigenerator/SquareGridGenerator.java:172-188 | A populator runs whenever no earlier one threw an uncaught exception. So an `IllegalArgumentException` never stops later populators. |
| Populator.OnlyUncaughtFailuresMatter | src/main/java/com/robomwm/multigenerator/SquareGridGenerator.java:173-188 | Which populators run, and what escapes, depends only on which populators throw uncaught exceptions. A caught `IllegalArgumentException` acts like a normal return. |
| Populator.IsolationExample | src/main/java/com/robomwm/multigenerator/SquareGridGenerator.java:173-188 | With [throws IllegalArgumentException, succeeds], both populators run, the first is reported, and nothing escapes. |
| Phases.PhasesUseCellIndex | src/main/java/com/robomwm/multigenerator/SquareGridGenerator.java:130-148 | Within the `int` range, `canSpawn`, `generateChunkData` and `populate` all delegate to the handle at `CellIndex`, or all fall back when that handle is null. Selection raises nothing; only a delegate populator's own exception can escape `populate`. |
| Phases.PhasesAgree | src/main/java/com/robomwm/multigenerator/SquareGridGenerator.java:130-148 | For the same (x, z) arguments, the three phases either fail with the same exception or all use the same delegate generator. |
| Phases.NullHandleFallsBack | src/main/java/com/robomwm/multigenerator/SquareGridGenerator.java:134-147 | Corrected behaviour: a null handle gives the host's spawn answer and vanilla chunk data, runs no populator, and raises nothing. |
| Phases.NullHandleRaisesAsWritten | src/main/java/com/robomwm/multigenerator/SquareGridGenerator.java:124-137 | For a registry holding only a null handle, selection as written raises `NullHandle` at the origin. The corrected `canSpawn` answers with the host default there. |

## Findings

| source | as written | input that shows it | evidently intended | confidence | as-written member | corrected member |
|---|---|---|---|---|---|---|
| src/main/java/com/robomwm/multigenerator/SquareGridGenerator.java:125 | The log line in `getGenerator` calls `getClass()` on the selected handle before returning it. A null handle, stored when a plugin's `getDefaultWorldGenerator` returned null, therefore throws `NullPointerException`. The null checks of `canSpawn`, `generateChunkData` and `populate` are never reached. | Registry [null], cell size 1, chunk (0, 0) | Fall back to the host's `canSpawn` and vanilla chunk data, and run no populator (lines 134-137, 144-147, 171) | high, not executed | GridDispatch.SelectAsWritten | Phases.NullHandleFallsBack |

The rest of the model uses the corrected selection `GridDispatch.Select`.
`Phases.NullHandleRaisesAsWritten` shows both halves on the concrete input.

## Left out

- Configuration reading is not modelled. This covers `reloadConfig`, the missing-section `RuntimeException`, the default id `"default"`, `getInt`/`getBoolean` defaults, and splitting each name on `,` into plugin name and config id. It is host I/O; the model takes the values read as `Settings`.
- Plugin lookup (`getPluginManager().getPlugin`) and `getDefaultWorldGenerator` are host calls. Their results are the input sequence of `Registry.Resolution` values.
- Logging (`info`, `warning`, `severe`) and the stack-trace lookup feeding the log line at line 124 are not modelled. Neither affects the selected index. The one effect of line 125 that matters, the null dereference, is modelled by `SelectAsWritten`.
- The `dispatchCommand` notification after a caught `IllegalArgumentException` goes to an external sink. The model records the populator as reported, but not whether the exception's stack trace was deep enough to send it.
- `Thread.getStackTrace()` is replaced by the explicit `depth` argument.
- The delegate generators' terrain and populator algorithms are foreign code. They are the function parameters `spawn`, `terrain`, `populatorsOf` and `outcome`.
- `getDefaultPopulators` returns a fresh one-element list holding the grid's populator. The list has no logic of its own; the populator is `Populator.Populate`.
- Threading is not modelled. The code only declares itself non-parallel (`IsParallelCapable`).
- GridDispatch.Construct: requires at most 46340 * 46340 configured entries. Past that, Java's `gridLengthInCells * gridLengthInCells` wraps and the loop no longer computes a minimal side. That wrap is not modelled.
- GridDispatch.IsParallelCapable: its definition is the constant `false` (line 205), so there is nothing to prove about it and it carries no contract.
- GridDispatch.ShouldGenerateCaves: returns the toggle read at construction; `Construct`'s ensures states its value, and a contract on the getter would only repeat the field.
- GridDispatch.ShouldGenerateDecorations: returns the toggle read at construction; `Construct`'s ensures states its value, and a contract on the getter would only repeat the field.
- GridDispatch.ShouldGenerateStructures: returns the toggle read at construction; `Construct`'s ensures states its value, and a contract on the getter would only repeat the field.
- The host's `canSpawn(World, x, z)` receives block coordinates, while `generateChunkData` and `populate` work on chunk coordinates. The code passes `canSpawn`'s arguments to `getGenerator` as if they were chunk coordinates (lines 131-133). So the spawn check for a block is not, in general, answered by the generator of the chunk that contains it. The model, like the code, treats every phase's (x, z) the same, and its cross-phase lemmas hold for equal (x, z) arguments only.

=== FILE: cell_mapper.dfy ===
/**
 * The cell mapping of `SquareGridGenerator.getGenerator`: chunk coordinates are
 * mirrored through `Math.abs`, divided into square cells of `cellSize` chunks,
 * laid out row by row on a grid `gridSide` cells wide, and the cell number is
 * reduced modulo the number of generators.
 *
 * `CellIndex` is the mapping over unbounded integers; `JavaCellIndex` is the
 * same expression evaluated with Java's 32-bit `int` operators.  The two agree
 * whenever no intermediate value leaves the `int` range (`JavaAgrees`).
 */
module CellMapper {
  import opened JavaInt

  /** `g` is the side of the smallest square grid with at least `count` cells. */
  predicate IsMinimalSide(g: int, count: int) {
    g >= 1 && g * g >= count && (g - 1) * (g - 1) < count
  }

  /** Column of the cell holding chunk column `x`. */
  function RegionX(x: int, cellSize: int): (r: nat)
    requires cellSize > 0
  {
    Magnitude(x) / cellSize
  }

  /** Row of the cell holding chunk row `z`. */
  function RegionZ(z: int, cellSize: int): (r: nat)
    requires cellSize > 0
  {
    Magnitude(z) / cellSize
  }

  /** The generator index of chunk `(x, z)`, in exact arithmetic. */
  function CellIndex(x: int, z: int, cellSize: int, gridSide: int, count: int): (r: int)
    requires cellSize > 0 && gridSide >= 1 && count >= 1
    ensures 0 <= r < count
  {
    (RegionX(x, cellSize) + RegionZ(z, cellSize) * gridSide) % count
  }

  /** The generator index exactly as the Java source computes it, overflow included. */
  function JavaCellIndex(x: int, z: int, cellSize: int, gridSide: int, count: int): (r: int)
    requires IsInt(x) && IsInt(z) && IsInt(cellSize) && cellSize != 0
    requires IsInt(gridSide) && 1 <= count <= MAX
    ensures IsInt(r)
    ensures -count < r < count
  {
    var regionX := Div(Abs(x), cellSize);
    var regionZ := Mul(Div(Abs(z), cellSize), gridSide);
    Rem(Add(regionX, regionZ), count)
  }

  /** No step of the Java computation overflows for chunk `(x, z)`. */
  predicate Fits(x: int, z: int, cellSize: int, gridSide: int)
    requires cellSize > 0 && gridSide >= 1
  {
    x != MIN && z != MIN && RegionX(x, cellSize) + RegionZ(z, cellSize) * gridSide <= MAX
  }

  /** `a <= b` survives multiplication by a natural number. */
  lemma MulMonotone(a: int, b: int, k: int)
    requires a <= b && k >= 0
    ensures a * k <= b * k
  {
    ProductNonnegative(b - a, k);
    assert b * k - a * k == (b - a) * k;
  }

  /** Euclidean division recovers the quotient of `q * d + a` when `0 <= a < d`. */
  lemma DivOfMultiplePlus(q: int, d: int, a: int)
    requires d > 0 && 0 <= a < d
    ensures (q * d + a) / d == q
  {
    var y := q * d + a;
    var q' := y / d;
    assert q' * d + y % d == y;
    if q' > q {
      MulMonotone(q + 1, q', d);
      assert false;
    } else if q' < q {
      MulMonotone(q', q - 1, d);
      assert false;
    }
  }

  /** With both operands in range, the Java evaluation is the exact one. */
  lemma JavaAgrees(x: int, z: int, cellSize: int, gridSide: int, count: int)
    requires IsInt(x) && IsInt(z) && IsInt(cellSize) && cellSize > 0
    requires IsInt(gridSide) && gridSide >= 1 && 1 <= count <= MAX
    requires Fits(x, z, cellSize, gridSide)
    ensures JavaCellIndex(x, z, cellSize, gridSide, count) == CellIndex(x, z, cellSize, gridSide, count)
  {
    var rx := RegionX(x, cellSize);
    var rz := RegionZ(z, cellSize);
    assert Div(Abs(x), cellSize) == rx;
    assert Div(Abs(z), cellSize) == rz;
    ProductNonnegative(rz, gridSide);
    assert Mul(rz, gridSide) == rz * gridSide;
    assert Add(rx, rz * gridSide) == rx + rz * gridSide;
  }

  /** The index the source computes lies in the registry whenever nothing overflows. */
  lemma JavaIndexInRange(x: int, z: int, cellSize: int, gridSide: int, count: int)
    requires IsInt(x) && IsInt(z) && IsInt(cellSize) && cellSize > 0
    requires IsInt(gridSide) && gridSide >= 1 && 1 <= count <= MAX
    requires Fits(x, z, cellSize, gridSide)
    ensures 0 <= JavaCellIndex(x, z, cellSize, gridSide, count) < count
  {
    JavaAgrees(x, z, cellSize, gridSide, count);
  }

  /**
   * `Math.abs(Integer.MIN_VALUE)` is negative, and so is the index it leads
   * to: three generators on their minimal grid of side 2.
   */
  lemma MinValueGivesNegativeIndex()
    ensures IsMinimalSide(2, 3)
    ensures JavaCellIndex(MIN, 0, 1, 2, 3) == -2
  {
  }

  /** `regionX + regionZ` can wrap past `MAX` into a negative index. */
  lemma SumOverflowGivesNegativeIndex()
    ensures IsMinimalSide(2, 3)
    ensures JavaCellIndex(MAX, 1, 1, 2, 3) == -1
  {
  }

  /**
   * `Math.abs(Integer.MIN_VALUE)` can also leave the index non-negative but
   * wrong: no sum or product wraps here, yet the negative column makes the
   * Java index name a different generator than the exact one, and nothing
   * raises.
   */
  lemma MinValueColumnPicksAnotherIndex()
    ensures IsMinimalSide(2, 3)
    ensures JavaCellIndex(MIN, MAX, 2, 2, 3) == 2
    ensures CellIndex(MIN, MAX, 2, 2, 3) == 1
  {
  }

  /** The product `regionZ * gridSide` wraps too, again to a wrong non-negative index. */
  lemma ProductOverflowPicksAnotherIndex()
    ensures IsMinimalSide(5, 17)
    ensures JavaCellIndex(0, 900000000, 1, 5, 17) == 5
    ensures CellIndex(0, 900000000, 1, 5, 17) == 6
  {
  }

  /** With a single generator every Java index is 0, overflow or not. */
  lemma OneGeneratorAlwaysIndexZero(x: int, z: int, cellSize: int, gridSide: int)
    requires IsInt(x) && IsInt(z) && IsInt(cellSize) && cellSize != 0 && IsInt(gridSide)
    ensures JavaCellIndex(x, z, cellSize, gridSide, 1) == 0
  {
  }

  /** Each axis is mirrored independently: the sign of either coordinate is irrelevant. */
  lemma Mirrored(x: int, z: int, cellSize: int, gridSide: int, count: int)
    requires cellSize > 0 && gridSide >= 1 && count >= 1
    ensures CellIndex(-x, z, cellSize, gridSide, count) == CellIndex(x, z, cellSize, gridSide, count)
    ensures CellIndex(x, -z, cellSize, gridSide, count) == CellIndex(x, z, cellSize, gridSide, count)
  {
  }

  /** The Java evaluation is mirrored too, for every `int`, because `Math.abs` is. */
  lemma JavaMirrored(x: int, z: int, cellSize: int, gridSide: int, count: int)
    requires IsInt(x) && IsInt(z) && IsInt(cellSize) && cellSize != 0
    requires IsInt(gridSide) && 1 <= count <= MAX
    ensures JavaCellIndex(Neg(x), z, cellSize, gridSide, count) == JavaCellIndex(x, z, cellSize, gridSide, count)
    ensures JavaCellIndex(x, Neg(z), cellSize, gridSide, count) == JavaCellIndex(x, z, cellSize, gridSide, count)
  {
    AbsOfNeg(x);
    AbsOfNeg(z);
  }

  /**
   * Every chunk of the `cellSize` by `cellSize` square in cell column `rx`,
   * cell row `rz` maps to cell number `rx + rz * gridSide`, reduced modulo the
   * generator count.
   */
  lemma CellIsUniform(rx: nat, rz: nat, a: nat, b: nat, cellSize: int, gridSide: int, count: int)
    requires cellSize > 0 && gridSide >= 1 && count >= 1
    requires a < cellSize && b < cellSize
    ensures CellIndex(rx * cellSize + a, rz * cellSize + b, cellSize, gridSide, count)
         == (rx + rz * gridSide) % count
  {
    ProductNonnegative(rx, cellSize);
    ProductNonnegative(rz, cellSize);
    DivOfMultiplePlus(rx, cellSize, a);
    DivOfMultiplePlus(rz, cellSize, b);
  }

  /**
   * A minimal grid is large enough for every generator: each index owns a cell
   * within the first `gridSide` by `gridSide` cells next to the origin.
   */
  lemma EveryIndexOwnsACell(i: int, cellSize: int, gridSide: int, count: int)
    requires cellSize > 0 && count >= 1 && IsMinimalSide(gridSide, count)
    requires 0 <= i < count
    ensures exists x, z :: 0 <= x < gridSide * cellSize && 0 <= z < gridSide * cellSize
                        && CellIndex(x, z, cellSize, gridSide, count) == i
  {
    var x, z := OriginCellOf(i, cellSize, gridSide, count);
    assert CellIndex(x, z, cellSize, gridSide, count) == i;
  }

  /** The first chunk of cell number `i` (column `i % gridSide`, row `i / gridSide`). */
  lemma OriginCellOf(i: nat, cellSize: int, gridSide: int, count: int) returns (x: int, z: int)
    requires cellSize > 0 && gridSide >= 1 && i < count && i < gridSide * gridSide
    ensures 0 <= x < gridSide * cellSize && 0 <= z < gridSide * cellSize
    ensures CellIndex(x, z, cellSize, gridSide, count) == i
  {
    var rx := i % gridSide;
    var rz := i / gridSide;
    QuotientBelowSide(i, gridSide);
    x := rx * cellSize;
    z := rz * cellSize;
    CellBound(rx, cellSize, gridSide);
    CellBound(rz, cellSize, gridSide);
    CellNumberIndex(rx, rz, cellSize, gridSide, count);
    assert rx + rz * gridSide == i;
    SmallRemainder(i, count);
  }

  /** A number below the divisor is its own remainder. */
  lemma SmallRemainder(i: nat, count: int)
    requires i < count
    ensures i % count == i
  {
  }

  /** The first chunk of the cell at column `rx`, row `rz` gets cell number `rx + rz * gridSide`. */
  lemma CellNumberIndex(rx: nat, rz: nat, cellSize: int, gridSide: int, count: int)
    requires cellSize > 0 && gridSide >= 1 && count >= 1
    ensures CellIndex(rx * cellSize, rz * cellSize, cellSize, gridSide, count) == (rx + rz * gridSide) % count
  {
    CellIsUniform(rx, rz, 0, 0, cellSize, gridSide, count);
    assert rx * cellSize + 0 == rx * cellSize && rz * cellSize + 0 == rz * cellSize;
  }

  /** Cell number `i < gridSide * gridSide` lies in one of the first `gridSide` rows. */
  lemma QuotientBelowSide(i: nat, gridSide: int)
    requires gridSide >= 1 && i < gridSide * gridSide
    ensures i == (i / gridSide) * gridSide + i % gridSide
    ensures i / gridSide < gridSide
  {
    var rz := i / gridSide;
    if rz >= gridSide {
      MulMonotone(gridSide, rz, gridSide);
      assert false;
    }
  }

  /** The first chunk of cell `r < gridSide` lies within `gridSide` cells of the origin. */
  lemma CellBound(r: nat, cellSize: int, gridSide: int)
    requires cellSize > 0 && r < gridSide
    ensures 0 <= r * cellSize < gridSide * cellSize
  {
    ProductNonnegative(r, cellSize);
    MulMonotone(r + 1, gridSide, cellSize);
  }

  /** Only one grid side is minimal for a given generator count. */
  lemma MinimalSideUnique(g1: int, g2: int, count: int)
    requires IsMinimalSide(g1, count) && IsMinimalSide(g2, count)
    ensures g1 == g2
  {
    if g1 < g2 {
      MulMonotone(g1, g2 - 1, g1);
      MulMonotone(g1, g2 - 1, g2 - 1);
      assert false;
    } else if g2 < g1 {
      MulMonotone(g2, g1 - 1, g2);
      MulMonotone(g2, g1 - 1, g1 - 1);
      assert false;
    }
  }

  /** The worked example: 3 generators on a grid of side 2 with 4-chunk cells. */
  lemma WorkedExample()
    ensures IsMinimalSide(2, 3)
    ensures CellIndex(5, 0, 4, 2, 3) == 1
    ensures CellIndex(9, 5, 4, 2, 3) == 1
  {
  }
}

=== FILE: grid_dispatch.dfy ===
/**
 * The square-grid generator itself: construction from the configured
 * generators, selection of the generator owning a chunk, and the two
 * per-chunk phases that delegate to it (spawn check and terrain data).
 *
 * Delegate generators are opaque handles of type `G`; what they answer is
 * passed in as functions, and the host's own default behaviour as values.
 */
module GridDispatch {
  import opened Results
  import opened JavaInt
  import opened CellMapper
  import opened Registry

  /** The values read from the configuration section at construction. */
  datatype Settings = Settings(cellSize: int, caves: bool, decorations: bool, structures: bool)

  /** A constructed generator: settings, grid side and the registry of handles. */
  datatype SquareGrid<G> = SquareGrid(settings: Settings, gridSide: int, generators: seq<Nullable<G>>)

  /** The exceptions a per-chunk call can raise. */
  datatype Fault =
    | DivisionByZero     // `cellLengthInChunks` is 0
    | IndexOutOfBounds   // the 32-bit index came out negative
    | NullHandle         // a null handle was dereferenced
    | PopulatorFailure   // a delegate populator threw something other than IllegalArgumentException

  /** Construction fails only when no configured generator could be found. */
  datatype ConfigError = NoGenerators

  /**
   * The largest registry whose grid sizing loop never overflows: beyond
   * 46340 * 46340 entries, `gridLengthInCells * gridLengthInCells` wraps.
   */
  const MaxGenerators: int := 46340 * 46340

  /** What construction guarantees about every generator it returns. */
  predicate Valid<G>(d: SquareGrid<G>) {
    && IsInt(d.settings.cellSize)
    && 1 <= |d.generators| <= MaxGenerators
    && IsInt(d.gridSide)
    && IsMinimalSide(d.gridSide, |d.generators|)
  }

  /** A side below 46340 has a square below 46340 squared, and conversely. */
  lemma SideBound(side: int)
    requires side >= 1
    ensures side * side < MaxGenerators ==> side < 46340
    ensures side <= 46340 ==> side * side <= MaxGenerators
    ensures side <= side * side
  {
    MulMonotone(1, side, side);
    if side >= 46340 {
      MulMonotone(46340, side, 46340);
      MulMonotone(46340, side, side);
    } else {
      MulMonotone(side, 46340, side);
      MulMonotone(side, 46340, 46340);
    }
  }

  /**
   * The constructor: build the registry from the lookups, fail when it is
   * empty, then grow the grid side from 1 until the grid has a cell for
   * every generator.
   */
  method Construct<G>(settings: Settings, entries: seq<Resolution<G>>) returns (r: Result<SquareGrid<G>, ConfigError>)
    requires IsInt(settings.cellSize)
    requires |entries| <= MaxGenerators
    ensures r.Thrown? <==> forall i :: 0 <= i < |entries| ==> entries[i].Missing?
    ensures r.Ok? ==> Valid(r.value) && r.value.generators == Resolve(entries)
    ensures r.Ok? ==> && ShouldGenerateCaves(r.value) == settings.caves
                           && ShouldGenerateDecorations(r.value) == settings.decorations
                           && ShouldGenerateStructures(r.value) == settings.structures
                           && r.value.settings.cellSize == settings.cellSize
  {
    var generators := Resolve(entries);
    if generators == [] {
      return Thrown(NoGenerators);
    }
    var side := 1;
    SideBound(side);
    while Mul(side, side) < |generators|
      invariant 1 <= side <= 46340
      invariant (side - 1) * (side - 1) < |generators|
      invariant Mul(side, side) == side * side
      decreases |generators| - side
    {
      SideBound(side);
      side := side + 1;
      SideBound(side);
    }
    return Ok(SquareGrid(settings, side, generators));
  }

  /**
   * `getGenerator` without its log line: the handle stored for the chunk's
   * cell, or the exception the index arithmetic leads to.
   */
  function Select<G>(d: SquareGrid<G>, x: int, z: int): (r: Result<Nullable<G>, Fault>)
    requires Valid(d) && IsInt(x) && IsInt(z)
    ensures r.Thrown? ==> r.error == DivisionByZero || r.error == IndexOutOfBounds
    ensures r.Thrown? && r.error == DivisionByZero <==> d.settings.cellSize == 0
    ensures r.Ok? ==> r.value in d.generators
  {
    var cellSize := d.settings.cellSize;
    if cellSize == 0 then Thrown(DivisionByZero)
    else
      var i := JavaCellIndex(x, z, cellSize, d.gridSide, |d.generators|);
      if 0 <= i then Ok(d.generators[i]) else Thrown(IndexOutOfBounds)
  }

  /**
   * `getGenerator` as written: its log line calls `getClass()` on the selected
   * handle before returning it, so a null handle raises instead of reaching
   * the callers' null checks.
   */
  function SelectAsWritten<G>(d: SquareGrid<G>, x: int, z: int): (r: Result<G, Fault>)
    requires Valid(d) && IsInt(x) && IsInt(z)
    ensures Select(d, x, z) == Ok(Null) ==> r == Thrown(NullHandle)
    ensures r.Ok? ==> Select(d, x, z) == Ok(Ref(r.value))
    ensures Select(d, x, z).Thrown? ==> r == Thrown(Select(d, x, z).error)
  {
    match Select(d, x, z)
    case Thrown(f) => Thrown(f)
    case Ok(Null) => Thrown(NullHandle)
    case Ok(Ref(g)) => Ok(g)
  }

  /** Within the `int` range, selection picks exactly the handle at `CellIndex`. */
  lemma SelectByCellIndex<G>(d: SquareGrid<G>, x: int, z: int)
    requires Valid(d) && IsInt(x) && IsInt(z)
    requires d.settings.cellSize > 0 && Fits(x, z, d.settings.cellSize, d.gridSide)
    ensures Select(d, x, z) == Ok(d.generators[CellIndex(x, z, d.settings.cellSize, d.gridSide, |d.generators|)])
  {
    JavaAgrees(x, z, d.settings.cellSize, d.gridSide, |d.generators|);
  }

  /** Negating either coordinate (Java negation, so `MIN` included) selects the same way. */
  lemma SelectMirrored<G>(d: SquareGrid<G>, x: int, z: int)
    requires Valid(d) && IsInt(x) && IsInt(z)
    ensures Select(d, Neg(x), z) == Select(d, x, z)
    ensures Select(d, x, Neg(z)) == Select(d, x, z)
  {
    if d.settings.cellSize != 0 {
      JavaMirrored(x, z, d.settings.cellSize, d.gridSide, |d.generators|);
    }
  }

  /**
   * At the edge of the `int` range the source's index goes negative and the
   * registry lookup raises: chunk column `MIN` in a three-generator grid.
   */
  lemma MinValueChunkRaises()
    ensures Select(SquareGrid(Settings(1, false, false, false), 2, [Null, Null, Ref(0)]), MIN, 0)
         == Thrown(IndexOutOfBounds)
  {
    MinValueGivesNegativeIndex();
    assert JavaCellIndex(MIN, 0, 1, 2, 3) == -2;
  }

  /** A single generator is selected for every chunk, however far out. */
  lemma OneGeneratorAlwaysSelected<G>(d: SquareGrid<G>, x: int, z: int)
    requires Valid(d) && IsInt(x) && IsInt(z) && |d.generators| == 1 && d.settings.cellSize != 0
    ensures Select(d, x, z) == Ok(d.generators[0])
  {
    OneGeneratorAlwaysIndexZero(x, z, d.settings.cellSize, d.gridSide);
  }

  /** `canSpawn`: ask the selected generator, or the host default when its handle is null. */
  function CanSpawn<G>(d: SquareGrid<G>, x: int, z: int, spawn: G -> bool, fallback: bool): (r: Result<bool, Fault>)
    requires Valid(d) && IsInt(x) && IsInt(z)
    ensures r.Thrown? <==> Select(d, x, z).Thrown?
    ensures r.Thrown? ==> r.error == Select(d, x, z).error
    ensures Select(d, x, z).Ok? && Select(d, x, z).value.Ref? ==> r == Ok(spawn(Select(d, x, z).value.value))
    ensures Select(d, x, z) == Ok(Null) ==> r == Ok(fallback)
  {
    match Select(d, x, z)
    case Thrown(f) => Thrown(f)
    case Ok(Ref(g)) => Ok(spawn(g))
    case Ok(Null) => Ok(fallback)
  }

  /** `generateChunkData`: the selected generator's terrain, or the host's vanilla data. */
  function GenerateChunkData<G, D>(d: SquareGrid<G>, x: int, z: int, terrain: G -> D, vanilla: D): (r: Result<D, Fault>)
    requires Valid(d) && IsInt(x) && IsInt(z)
    ensures r.Thrown? <==> Select(d, x, z).Thrown?
    ensures r.Thrown? ==> r.error == Select(d, x, z).error
    ensures Select(d, x, z).Ok? && Select(d, x, z).value.Ref? ==> r == Ok(terrain(Select(d, x, z).value.value))
    ensures Select(d, x, z) == Ok(Null) ==> r == Ok(vanilla)
  {
    match Select(d, x, z)
    case Thrown(f) => Thrown(f)
    case Ok(Ref(g)) => Ok(terrain(g))
    case Ok(Null) => Ok(vanilla)
  }

  /** `isParallelCapable`: never, whatever the delegates could do. */
  function IsParallelCapable<G>(d: SquareGrid<G>): (r: bool) {
    false
  }

  /** `shouldGenerateCaves`: the configured toggle. */
  function ShouldGenerateCaves<G>(d: SquareGrid<G>): (r: bool) {
    d.settings.caves
  }

  /** `shouldGenerateDecorations`: the configured toggle. */
  function ShouldGenerateDecorations<G>(d: SquareGrid<G>): (r: bool) {
    d.settings.decorations
  }

  /** `shouldGenerateStructures`: the configured toggle. */
  function ShouldGenerateStructures<G>(d: SquareGrid<G>): (r: bool) {
    d.settings.structures
  }
}

=== FILE: java_int.dfy ===
/**
 * Java's 32-bit `int` arithmetic, written out over Dafny's unbounded integers.
 *
 * Java wraps on overflow (two's complement), `Math.abs(Integer.MIN_VALUE)` is
 * `Integer.MIN_VALUE`, and `/` and `%` truncate toward zero.  Dafny's `/` and
 * `%` are Euclidean, so the truncating versions are defined here from the
 * magnitudes of the operands.
 */
module JavaInt {

  const MIN: int := -0x8000_0000
  const MAX: int := 0x7fff_ffff
  const MODULUS: int := 0x1_0000_0000

  /** The values a Java `int` can hold. */
  predicate IsInt(x: int) {
    MIN <= x <= MAX
  }

  /** Two's-complement wrap-around of an exact result back into `int`. */
  function Wrap(x: int): (r: int)
    ensures IsInt(r)
    ensures IsInt(x) ==> r == x
    ensures MAX < x <= MAX + MODULUS ==> r == x - MODULUS
  {
    (x - MIN) % MODULUS + MIN
  }

  /** Java `a + b` on ints. */
  function Add(a: int, b: int): (r: int)
    requires IsInt(a) && IsInt(b)
    ensures IsInt(r)
    ensures IsInt(a + b) ==> r == a + b
  {
    Wrap(a + b)
  }

  /** Java `a * b` on ints. */
  function Mul(a: int, b: int): (r: int)
    requires IsInt(a) && IsInt(b)
    ensures IsInt(r)
    ensures IsInt(a * b) ==> r == a * b
  {
    Wrap(a * b)
  }

  /** Java unary `-x` on ints: negating `MIN` gives `MIN` back. */
  function Neg(x: int): (r: int)
    requires IsInt(x)
    ensures IsInt(r)
    ensures x != MIN ==> r == -x
    ensures x == MIN ==> r == MIN
  {
    Wrap(-x)
  }

  /** `Math.abs(int)`: the magnitude, except that `MIN` stays negative. */
  function Abs(x: int): (r: int)
    requires IsInt(x)
    ensures IsInt(r)
    ensures x != MIN ==> r >= 0 && (r == x || r == -x)
    ensures x == MIN ==> r == MIN
  {
    if x < 0 then Neg(x) else x
  }

  /** The exact magnitude of an unbounded integer (a helper for `Div` and `Rem`). */
  function Magnitude(x: int): (r: nat) {
    if x < 0 then -x else x
  }

  /** Dividing a natural number by a positive one never makes it larger. */
  lemma QuotientBound(p: nat, d: nat)
    requires d >= 1
    ensures 0 <= p / d <= p
  {
    var q := p / d;
    assert q * d + p % d == p;
    assert q * (d - 1) >= 0 by {
      ProductNonnegative(q, d - 1);
    }
    assert q * d == q + q * (d - 1);
  }

  /** The product of two natural numbers is a natural number. */
  lemma ProductNonnegative(a: int, b: int)
    requires a >= 0 && b >= 0
    ensures a * b >= 0
  {
  }

  /** Java `a / b` on ints: truncates toward zero, and `MIN / -1` wraps to `MIN`. */
  function Div(a: int, b: int): (r: int)
    requires IsInt(a) && IsInt(b) && b != 0
    ensures IsInt(r)
    ensures a >= 0 && b > 0 ==> r == a / b
    ensures (a >= 0) == (b > 0) && a != MIN ==> r >= 0
  {
    var q := Magnitude(a) / Magnitude(b);
    QuotientBound(Magnitude(a), Magnitude(b));
    if (a < 0) == (b < 0) then Wrap(q) else Wrap(-q)
  }

  /** Java `a % b` on ints: the remainder takes the sign of the dividend. */
  function Rem(a: int, b: int): (r: int)
    requires IsInt(a) && IsInt(b) && b != 0
    ensures Magnitude(r) < Magnitude(b)
    ensures a >= 0 ==> 0 <= r
    ensures a < 0 ==> r <= 0
    ensures a >= 0 && b > 0 ==> r == a % b
  {
    var m := Magnitude(a) % Magnitude(b);
    if a < 0 then -m else m
  }

  /** `Math.abs` cannot tell a value from its Java negation, `MIN` included. */
  lemma AbsOfNeg(x: int)
    requires IsInt(x)
    ensures Abs(Neg(x)) == Abs(x)
  {
  }
}

=== FILE: phases.dfy ===
/**
 * The three phases (spawn check, terrain data, population) each select a
 * generator independently from the `(x, z)` arguments they receive; these
 * lemmas state that for the same `(x, z)` arguments they select the same
 * one, and how a null handle is treated.
 */
module Phases {
  import opened Results
  import opened JavaInt
  import opened CellMapper
  import opened GridDispatch
  import opened Populator

  /**
   * For a chunk whose index arithmetic stays within `int`, every phase
   * delegates to the handle at `CellIndex` (or falls back when it is null),
   * and none of them raises an exception of its own.
   */
  lemma PhasesUseCellIndex<G, D, P>(d: SquareGrid<G>, x: int, z: int, depth: nat,
                                     spawn: G -> bool, fallback: bool,
                                     terrain: G -> D, vanilla: D,
                                     populatorsOf: G -> seq<P>, outcome: P -> Outcome)
    requires Valid(d) && IsInt(x) && IsInt(z) && depth <= StackLimit
    requires d.settings.cellSize > 0 && Fits(x, z, d.settings.cellSize, d.gridSide)
    ensures var h := d.generators[CellIndex(x, z, d.settings.cellSize, d.gridSide, |d.generators|)];
            && CanSpawn(d, x, z, spawn, fallback) == Ok(if h.Ref? then spawn(h.value) else fallback)
            && GenerateChunkData(d, x, z, terrain, vanilla) == Ok(if h.Ref? then terrain(h.value) else vanilla)
            && Populate(d, depth, x, z, populatorsOf, outcome)
               == (if h.Ref? then FanOut(populatorsOf(h.value), outcome) else Populated([], [], Ok(())))
  {
    SelectByCellIndex(d, x, z);
  }

  /**
   * For the same `(x, z)` arguments, the phases fail together with the same
   * exception or all go to the same delegate: the spawn answer, the terrain and the
   * populators invoked all come from one handle.
   */
  lemma PhasesAgree<G, D, P>(d: SquareGrid<G>, x: int, z: int, depth: nat,
                             spawn: G -> bool, fallback: bool,
                             terrain: G -> D, vanilla: D,
                             populatorsOf: G -> seq<P>, outcome: P -> Outcome)
    requires Valid(d) && IsInt(x) && IsInt(z) && depth <= StackLimit
    ensures CanSpawn(d, x, z, spawn, fallback).Thrown?
        <==> GenerateChunkData(d, x, z, terrain, vanilla).Thrown?
    ensures CanSpawn(d, x, z, spawn, fallback).Thrown? ==>
              && GenerateChunkData(d, x, z, terrain, vanilla).error == CanSpawn(d, x, z, spawn, fallback).error
              && Populate(d, depth, x, z, populatorsOf, outcome).completion == Thrown(CanSpawn(d, x, z, spawn, fallback).error)
    ensures forall g :: Select(d, x, z) == Ok(Ref(g)) ==>
              && CanSpawn(d, x, z, spawn, fallback) == Ok(spawn(g))
              && GenerateChunkData(d, x, z, terrain, vanilla) == Ok(terrain(g))
              && Populate(d, depth, x, z, populatorsOf, outcome) == FanOut(populatorsOf(g), outcome)
  {
  }

  /**
   * Corrected behaviour: a null handle makes each phase fall back to the
   * host's default and run no delegate populator, with no exception.
   */
  lemma NullHandleFallsBack<G, D, P>(d: SquareGrid<G>, x: int, z: int, depth: nat,
                                     spawn: G -> bool, fallback: bool,
                                     terrain: G -> D, vanilla: D,
                                     populatorsOf: G -> seq<P>, outcome: P -> Outcome)
    requires Valid(d) && IsInt(x) && IsInt(z)
    ensures Select(d, x, z) == Ok(Null) ==>
              && CanSpawn(d, x, z, spawn, fallback) == Ok(fallback)
              && GenerateChunkData(d, x, z, terrain, vanilla) == Ok(vanilla)
              && Populate(d, depth, x, z, populatorsOf, outcome) == Populated([], [], Ok(()))
  {
  }

  /** A one-generator registry whose only handle is null. */
  function NullOnlyGrid(): (d: SquareGrid<int>)
    ensures Valid(d) && d.generators == [Null]
  {
    SquareGrid(Settings(1, false, false, false), 1, [Null])
  }

  /**
   * As written, the null handle never reaches the fallbacks: selecting the
   * origin chunk of `NullOnlyGrid` raises, while the corrected phases answer
   * with the host defaults.
   */
  lemma NullHandleRaisesAsWritten(spawn: int -> bool, fallback: bool)
    ensures SelectAsWritten(NullOnlyGrid(), 0, 0) == Thrown(NullHandle)
    ensures CanSpawn(NullOnlyGrid(), 0, 0, spawn, fallback) == Ok(fallback)
  {
    assert Select(NullOnlyGrid(), 0, 0) == Ok(Null);
  }
}

=== FILE: populator.dfy ===
/**
 * The grid's single block populator (`SurvivalPopulator`): at population time
 * it re-selects the chunk's generator and runs that generator's own
 * populators in order.  An `IllegalArgumentException` from one of them is
 * caught and reported, and the loop goes on; any other exception escapes and
 * ends the loop.  A call stack deeper than `StackLimit` frames stops the whole
 * populator before it selects anything.
 */
module Populator {
  import opened Results
  import opened JavaInt
  import opened GridDispatch

  /** Call-stack depth above which population is abandoned silently. */
  const StackLimit: nat := 900

  /** How one delegate populator's `populate` call ended. */
  datatype Outcome = Completed | IllegalArgument | OtherFailure

  /**
   * What one population pass did: the delegate populators it invoked, in
   * order; those whose `IllegalArgumentException` it caught and reported; and
   * the exception that escaped, if any.
   */
  datatype Populated<P> = Populated(invoked: seq<P>, reported: seq<P>, completion: Result<(), Fault>)

  /** The populators among `ps` that end with `IllegalArgumentException`, in order. */
  function IllegalArguments<P>(ps: seq<P>, outcome: P -> Outcome): (r: seq<P>)
    ensures |r| <= |ps|
    ensures forall j :: 0 <= j < |r| ==> r[j] in ps && outcome(r[j]) == IllegalArgument
    ensures forall p :: p in ps && outcome(p) == IllegalArgument ==> p in r
  {
    if ps == [] then []
    else if outcome(ps[0]) == IllegalArgument then [ps[0]] + IllegalArguments(ps[1..], outcome)
    else IllegalArguments(ps[1..], outcome)
  }

  /**
   * The loop over the delegate's populators: each is invoked in turn; the
   * first one ending in `OtherFailure` is the last one invoked.
   */
  function FanOut<P>(ps: seq<P>, outcome: P -> Outcome): (r: Populated<P>)
    ensures r.completion.Ok? || r.completion == Thrown(PopulatorFailure)
    ensures r.completion.Ok? <==> forall i :: 0 <= i < |ps| ==> outcome(ps[i]) != OtherFailure
    ensures r.completion.Ok? ==> r.invoked == ps
    ensures r.invoked <= ps
    ensures r.reported == IllegalArguments(r.invoked, outcome)
  {
    if ps == [] then Populated([], [], Ok(()))
    else
      var head := ps[0];
      match outcome(head)
      case OtherFailure =>
        assert [head][1..] == [];
        Populated([head], [], Thrown(PopulatorFailure))
      case IllegalArgument =>
        var rest := FanOut(ps[1..], outcome);
        assert ([head] + rest.invoked)[1..] == rest.invoked;
        Populated([head] + rest.invoked, [head] + rest.reported, rest.completion)
      case Completed =>
        var rest := FanOut(ps[1..], outcome);
        assert ([head] + rest.invoked)[1..] == rest.invoked;
        Populated([head] + rest.invoked, rest.reported, rest.completion)
  }

  /**
   * When an uncaught exception escapes, the populators invoked are a prefix
   * of the list ending at the first one that threw it.
   */
  lemma {:induction false} FanOutStopsAtFirstUncaught<P>(ps: seq<P>, outcome: P -> Outcome)
    requires FanOut(ps, outcome).completion.Thrown?
    ensures var r := FanOut(ps, outcome);
            && 0 < |r.invoked|
            && r.invoked <= ps
            && outcome(r.invoked[|r.invoked| - 1]) == OtherFailure
            && forall i :: 0 <= i < |r.invoked| - 1 ==> outcome(r.invoked[i]) != OtherFailure
  {
    var head := ps[0];
    if outcome(head) != OtherFailure {
      var rest := FanOut(ps[1..], outcome);
      FanOutStopsAtFirstUncaught(ps[1..], outcome);
      var r := FanOut(ps, outcome);
      assert r.invoked == [head] + rest.invoked;
      forall i | 0 <= i < |r.invoked| - 1
        ensures outcome(r.invoked[i]) != OtherFailure
      {
        if i > 0 {
          assert r.invoked[i] == rest.invoked[i - 1];
        }
      }
    }
  }

  /**
   * `SurvivalPopulator.populate` for the chunk at `(x, z)`, with the current
   * call-stack depth passed in explicitly.
   */
  function Populate<G, P>(d: SquareGrid<G>, depth: nat, x: int, z: int,
                          populatorsOf: G -> seq<P>, outcome: P -> Outcome): (r: Populated<P>)
    requires Valid(d) && IsInt(x) && IsInt(z)
    ensures depth > StackLimit ==> r.invoked == [] && r.completion.Ok?
    ensures r.invoked != [] ==> && Select(d, x, z).Ok?
                                && Select(d, x, z).value.Ref?
                                && r.invoked <= populatorsOf(Select(d, x, z).value.value)
    ensures r.completion.Thrown? && r.completion != Thrown(PopulatorFailure) ==> Select(d, x, z) == Thrown(r.completion.error)
  {
    if depth > StackLimit then Populated([], [], Ok(()))
    else
      match Select(d, x, z)
      case Thrown(f) => Populated([], [], Thrown(f))
      case Ok(Null) => Populated([], [], Ok(()))
      case Ok(Ref(g)) => FanOut(populatorsOf(g), outcome)
  }

  /**
   * A populator is reached unless an earlier one failed with something other
   * than `IllegalArgumentException`: caught failures never stop the loop.
   */
  lemma ReachedUnlessEarlierOtherFailure<P>(ps: seq<P>, outcome: P -> Outcome, j: int)
    requires 0 <= j < |ps|
    requires forall i :: 0 <= i < j ==> outcome(ps[i]) != OtherFailure
    ensures j < |FanOut(ps, outcome).invoked| && FanOut(ps, outcome).invoked[j] == ps[j]
  {
    var r := FanOut(ps, outcome);
    if r.completion.Thrown? {
      FanOutStopsAtFirstUncaught(ps, outcome);
      if |r.invoked| <= j {
        assert false;
      }
    }
  }

  /**
   * Only the `OtherFailure` outcomes steer the loop: two outcome assignments
   * that agree on which populators throw uncaught exceptions invoke the same
   * populators and raise the same exception.
   */
  lemma {:induction false} OnlyUncaughtFailuresMatter<P>(ps: seq<P>, o1: P -> Outcome, o2: P -> Outcome)
    requires forall i :: 0 <= i < |ps| ==> (o1(ps[i]) == OtherFailure <==> o2(ps[i]) == OtherFailure)
    ensures FanOut(ps, o1).invoked == FanOut(ps, o2).invoked
    ensures FanOut(ps, o1).completion == FanOut(ps, o2).completion
  {
    if ps != [] {
      assert o1(ps[0]) == OtherFailure <==> o2(ps[0]) == OtherFailure;
      if o1(ps[0]) != OtherFailure {
        forall i | 0 <= i < |ps[1..]|
          ensures o1(ps[1..][i]) == OtherFailure <==> o2(ps[1..][i]) == OtherFailure
        {
          assert ps[1..][i] == ps[i + 1];
        }
        OnlyUncaughtFailuresMatter(ps[1..], o1, o2);
      }
    }
  }

  /**
   * A delegate with one populator that throws `IllegalArgumentException` and
   * one that succeeds: both run, the failure is reported, nothing escapes.
   */
  lemma IsolationExample<P>(bad: P, good: P, outcome: P -> Outcome)
    requires outcome(bad) == IllegalArgument && outcome(good) == Completed
    ensures FanOut([bad, good], outcome) == Populated([bad, good], [bad], Ok(()))
  {
    assert [bad, good][1..] == [good];
    assert [good][1..] == [];
    var last := FanOut([good], outcome);
    assert last == Populated([good], [], FanOut([], outcome).completion);
    assert FanOut([bad, good], outcome) == Populated([bad] + last.invoked, [bad] + last.reported, last.completion);
  }
}

=== FILE: registry.dfy ===
/**
 * Building the generator registry: the configured generator names are looked
 * up in order; a name whose plugin is missing is skipped, while a plugin that
 * is found contributes whatever handle its default world generator returned,
 * null included.
 */
module Registry {
  import opened Results

  /**
   * What looking up one configured name produced: no plugin (`Missing`), or
   * a plugin whose default world generator is `handle` (`Null` for null).
   */
  datatype Resolution<G> = Missing | Resolved(handle: Nullable<G>)

  /** The registry built from the lookups, in configuration order. */
  function Resolve<G>(entries: seq<Resolution<G>>): (r: seq<Nullable<G>>)
    ensures |r| <= |entries|
    ensures r == [] <==> forall i :: 0 <= i < |entries| ==> entries[i].Missing?
    ensures forall j :: 0 <= j < |r| ==> exists i :: 0 <= i < |entries| && entries[i] == Resolved(r[j])
  {
    if entries == [] then []
    else
      var rest := Resolve(entries[1..]);
      match entries[0]
      case Missing => rest
      case Resolved(h) => [h] + rest
  }

  /**
   * Resolution processes the configuration one entry at a time: resolving a
   * concatenation concatenates the registries.  Together with the one-entry
   * cases this pins the registry down as the resolved handles in order.
   */
  lemma {:induction false} ResolveAppend<G>(a: seq<Resolution<G>>, b: seq<Resolution<G>>)
    ensures Resolve(a + b) == Resolve(a) + Resolve(b)
  {
    if a == [] {
      assert a + b == b;
    } else {
      assert (a + b)[1..] == a[1..] + b;
      ResolveAppend(a[1..], b);
    }
  }

  /** A single entry: a missing plugin adds nothing, a found one adds its handle. */
  lemma ResolveOne<G>(e: Resolution<G>)
    ensures e.Missing? ==> Resolve([e]) == []
    ensures e.Resolved? ==> Resolve([e]) == [e.handle]
  {
    assert [e][1..] == [];
  }

  /** Every found plugin has its handle in the registry. */
  lemma {:induction false} ResolvedEntryKept<G>(entries: seq<Resolution<G>>, i: int)
    requires 0 <= i < |entries| && entries[i].Resolved?
    ensures entries[i].handle in Resolve(entries)
  {
    if i > 0 {
      ResolvedEntryKept(entries[1..], i - 1);
    }
  }
}

=== FILE: results.dfy ===
/** The two Java-level outcomes the other modules share. */
module Results {

  /** A Java reference that may be null. */
  datatype Nullable<+T> = Null | Ref(value: T)

  /** A Java call that either returns `value` or throws `error`. */
  datatype Result<+T, +E> = Ok(value: T) | Thrown(error: E)
}
